=== FILE: README.md ===
# Telemetry relay: reliable messaging and command layer

A Dafny model of the messaging and command core of the field relay in
`client/client.js`: the relay holds one TCP connection to a control server,
cuts the incoming stream into newline-terminated lines, runs the lines that
start with `cmd:` (and allowed text messages) through a command interpreter,
and sends tagged, newline-framed messages back, parking failed writes in a
queue that a periodic drain empties.

Everything is pure data and functions: the schedule (`Config`), the side
effects of a command (`Effect`: replies, reboot, sensor pause/record, clock
set, tunnel open/close, daily-job replacement, the restart dance's timer), the
receive buffer (`Receiver`) and the sender's state (`Outbox`: socket flag,
retry queue, bytes on the wire). The socket's presence, the outcome of each
write, the clock hour, the structured encoder and the modem/sensor states are
inputs.

Modules:

- `Wrappers` — `Option`.
- `Strings` — the JavaScript string operations used: `indexOf`, `split`/`join`,
  `toLowerCase`, `replace` of the first match, `/^\d{1,n}$/`, `parseInt`.
- `Signal` — `getSendableSignal` and one tick of the five-second poller.
- `Framing` — newline framing and deframing of the stream.
- `Outbound` — `send`, `sendTCP`, the identification line and the queue drain.
- `Commands` — `commandHandler` and the restart dance.
- `Inbound` — `cmd:` recognition, the text-message gate, and the socket's
  `data` handler.

Notes on the code as written:

- A write's error callback runs after the drain loop has finished, so the
  drain pops the whole queue once and the messages that fail again form the
  next queue, in order. A pass cannot loop forever.
- With no socket, `sendTCP` drops the message. The model's drain without a
  socket therefore empties the queue. The source never reaches that state: the
  queue only grows inside a write callback (client/client.js:208-210), which
  needs a socket, and the socket handle is assigned on connect (line 63) and
  never cleared.
- Only the first two `:`-separated pieces of a structured reply reach the
  codec, so a `date` echo such as `date:2016-05-12t10:30:00.000z` arrives with
  result `2016-05-12t10`.
- The restart dance pauses the sensor at once. Only the decision to record
  and the reply wait for the 3-second timer.
- The poller's `net<label>` message and the `phoneNumber=<number>` line go
  through `sendTCP` directly, so they carry no type tag.
- `init` replaces the schedule but does not replace the two daily jobs.
  `changestarttime` and `changestoptime` do replace them.
- The hour checks count digits only, so `"99"` is accepted as an hour.
- `init` with a malformed field answers nothing at all. A setter with a
  malformed argument answers `<name>:KO`.

## Model

| member | source | states |
|---|---|---|
| Strings.IndexOf | client/client.js:72 | the result is -1 exactly when the character is absent; otherwise it is the position of its first occurrence |
| Strings.Split | client/client.js:78 | `split` on one character gives at least one part, no part holds the separator, and joining the parts gives back the input |
| Strings.SplitJoin | client/client.js:78 | splitting undoes joining when the parts hold no separator |
| Strings.ReplaceFirst | client/client.js:316 | only the first occurrence of the pattern character changes; the length is kept |
| Strings.Before | client/client.js:316 | `split(sep)[0]` (also at line 223): the text before the first separator, all of the input when there is none; it holds no separator and is a prefix of the input |
| Strings.ToLower | client/client.js:78 | lower-casing keeps the length, maps each character on its own and leaves no upper-case letter |
| Strings.DecimalValue | client/client.js:280 | the value of a digit string is below ten to the power of its length |
| Strings.DigitsUpTo | client/client.js:279 | `/^\d{1,n}$/` (also at lines 288, 302 and 338): one to n characters, all ASCII digits 0-9 (JavaScript's `\d` without the `u` flag), with `$` anchoring at the end of the whole input (no `m` flag) |
| Strings.DigitsBound | client/client.js:279-280 | a string of at most n digits parses to a value in [0, 10^n - 1]; with n = 5 the period is at most 99999 |
| Strings.ParseInt | client/client.js:174 | `parseInt` gives NaN exactly when the text does not start with a digit |
| Strings.ParseIntOfDigits | client/client.js:174 | on a digit-only string `parseInt` is its decimal value |
| Signal.Classify | client/client.js:41-53 | missing or below 2 gives NODATA; 2, 3 and 4 give GPRS, EDGE and 3G; above 4 gives H/H+; `unknown` is reached by no integer or missing input |
| Signal.LabelTextRoundTrip | client/client.js:41-53 | every label is read back from its wire text, so distinct labels have distinct texts |
| Signal.ClassifyMonotone | client/client.js:41-53 | a higher network type never gives a worse label |
| Signal.PollTick | client/client.js:120-127 | a tick stores the new label and sends `net<label>` exactly when the label changed |
| Signal.PollSettles | client/client.js:122-126 | a second tick reading the same network type sends nothing |
| Framing.FrameIsJoin | client/client.js:75-81 | a non-empty frame is the lines joined by newlines, plus one final newline |
| Framing.Deframe | client/client.js:69-83 | lines hold no newline, the tail holds no newline, and the lines (each newline-terminated) followed by the tail are the whole buffer |
| Framing.DeframeFrame | client/client.js:69-83 | the cut is unique: deframing the frame of newline-free lines plus a newline-free tail gives exactly those lines and tail |
| Framing.DeframeChunked | client/client.js:67-83 | text split over two events is cut exactly as when it arrives at once |
| Outbound.SendTCP | client/client.js:206-216 | with a socket, a successful write appends message and newline to the wire and a failed one appends the message to the back of the queue; with no socket nothing changes |
| Outbound.SendTCPKeeps | client/client.js:206-212 | with a socket a message always ends up on the wire or last in the queue |
| Outbound.EnvelopeOf | client/client.js:221-228 | the command is the text before the first `:`; the result is missing exactly when there is no `:`, and otherwise is the text between the first and second `:`; the modem and sensor states pass through |
| Outbound.EnvelopeOfReply | client/client.js:223 | a `<command>:<result>` reply reaches the encoder as that command and result |
| Outbound.EnvelopeTruncates | client/client.js:223 | in `<command>:<result>:<more>` the codec sees `<result>` only; the rest is lost |
| Outbound.Tagged | client/client.js:219-237 | a clear message goes out as `0` and its text; a generic one as `2` and the encoder's output for its envelope |
| Outbound.TaggedRoundTrip | client/client.js:231-235 | a receiver reads back the tag and the payload `send` wrote |
| Outbound.Send | client/client.js:219-237 | `send` writes exactly the tagged line with the queue unchanged, or queues it with the wire unchanged; it drops it without a socket; the socket is never changed |
| Outbound.SendMeasurement | client/client.js:159-163 | a compact-encoded sensor record goes out behind tag `1` with the queue unchanged; a failed write queues it with the wire unchanged, and with no socket it is dropped |
| Outbound.CompactRoundTrip | client/client.js:161 | a line behind tag `1` reads back as the compact payload |
| Outbound.OnConnect | client/client.js:61-65 | on connecting, the socket is present and `phoneNumber=<number>` is the next line written (queue unchanged) or queued (wire unchanged) |
| Outbound.Drain | client/client.js:195-202 | the drain pops every queued message in order; successes are written in order, failures form the new queue in order, and with no socket all are dropped |
| Outbound.SelectPartition | client/client.js:198-201 | the written and requeued messages together are exactly the drained queue, none lost or duplicated |
| Outbound.DrainAllSucceed | client/client.js:198-201 | when every write succeeds the whole queue reaches the wire in order and the queue ends empty |
| Commands.TimeArg | client/client.js:316 | the clock value is the argument with its first `t` turned into a space, cut just before its first `.` (whole when there is none) |
| Commands.TimeArgIso | client/client.js:316 | `<day>t<clock>.<fraction>` becomes `<day> <clock>` |
| Commands.ValidPeriod | client/client.js:279 | `/^\d{1,5}$/` (also at line 338): the period is one to five ASCII digits and nothing else |
| Commands.ValidHour | client/client.js:288 | `/^\d{1,2}$/` (also at lines 302 and 338): an hour is one or two ASCII digits and nothing else; the value is not range-checked |
| Commands.NoParam | client/client.js:251-273 | parameterless commands never change the schedule, answer only when known and never answer `KO` |
| Commands.ParameterlessCommands | client/client.js:251-273 | `status` replies `status:OK`; `reboot` reboots without a reply; `resumerecord`, `pauserecord` and `closetunnel` record at the current period, pause or close the tunnel, then reply `<name>:OK`; none changes the schedule |
| Commands.OneParam | client/client.js:275-321 | one-parameter commands emit nothing exactly when the name is unknown; every reply is structured |
| Commands.OneParamChecks | client/client.js:278-314 | a setter answers `<name>:KO` exactly when its check fails; only a passed check changes the schedule, which stays well formed |
| Commands.Init | client/client.js:333-348 | `init` does nothing exactly when a check fails, changes the schedule only when all pass, and never replies directly |
| Commands.Handle | client/client.js:243-354 | unknown counts or names do nothing; `KO` is answered exactly for a failed setter check; the schedule changes only on passed checks and stays well formed; replies are structured |
| Commands.ChangePeriod | client/client.js:278-286 | a 1-5 digit period is assigned (at most 99999), the sensor paused and the reply timer armed with `changeperiod:<arg>`; otherwise `changeperiod:KO` and no change |
| Commands.ChangeHours | client/client.js:287-314 | a 1-2 digit hour is assigned, the sensor paused, the reply timer armed and the matching daily job replaced; otherwise `<name>:KO` and no change |
| Commands.HourCheckCountsDigits | client/client.js:288-289 | `"99"` is accepted as the wake hour |
| Commands.InitAllOrNothing | client/client.js:336-346 | `init` does nothing (no clock, no reply) iff a field is malformed; otherwise clock, period, wake and sleep are set, the sensor paused and the timer armed for `init:OK`; daily jobs are never replaced |
| Commands.OpenTunnelArity | client/client.js:323-331 | `opentunnel` acts only with exactly three parameters, forwarded in order |
| Commands.DateUnchecked | client/client.js:315-319 | `date` is not checked: the clock is set from the argument, the sensor paused and the timer armed to echo it |
| Commands.InWindow | client/client.js:174 | the hour test: wake <= hour < sleep after `parseInt` of both bounds, false when a bound is NaN |
| Commands.InWindowDecimal | client/client.js:174 | for a well-formed schedule the hour test is wake <= hour < sleep on the decimal values |
| Commands.Restart | client/client.js:169-171 | the immediate part of the restart dance: pause the sensor, then arm the 3-second reply timer |
| Commands.Resume | client/client.js:171-178 | when the timer fires: record at the current period iff the hour is in the window, then always reply; nothing else |
| Commands.ChangePeriodExample | client/client.js:278-281 | `changeperiod 42` inside the default window sets the period to 42 and pauses at once; the timer then records at 42 and replies `changeperiod:42` |
| Commands.LateWakeNeverRecords | client/client.js:174 | a wake hour of 24 or more never resumes recording |
| Commands.InitialWellFormed | client/client.js:22-24 | the start-up schedule has the shapes the checks enforce, so with the preservation results every reachable schedule has them |
| Inbound.IsCommandLine | client/client.js:77 | a line is a command line iff its first four characters are exactly `cmd:`; shorter lines never are |
| Inbound.CommandArgs | client/client.js:77-78 | a line has arguments iff it starts with `cmd:`; they are at least one, hold no space and join back to the lower-cased remainder |
| Inbound.CommandArgsRoundTrip | client/client.js:77-78 | lower-case, space-free arguments sent as `cmd:` plus their join are recognised as exactly those arguments |
| Inbound.SmsCommand | client/client.js:150-152 | a text message is a command iff its body starts with `cmd:` and its sender is allowed; its arguments are those of the body |
| Inbound.SmsAsWritten | client/client.js:150 | as written, no text message is dispatched: a `cmd:` message throws and every other one is ignored |
| Inbound.SmsNeverDispatched | client/client.js:150-152 | a command from an allowed sender is dispatched by the corrected gate but never by the code as written |
| Inbound.OnSms | client/client.js:148-154 | an allowed sender's message runs exactly as the same line from the socket; any other sender's does nothing |
| Inbound.Line | client/client.js:77-80 | a line without the `cmd:` prefix changes nothing and emits nothing; a `cmd:` line runs the interpreter on its arguments; the schedule stays well formed |
| Inbound.CommandLineRuns | client/client.js:77-80 | a `cmd:` line spelling lower-case, space-free arguments runs exactly the interpreter on those arguments |
| Inbound.RunLines | client/client.js:74-83 | lines run in order, each on the schedule the earlier ones left; a batch without command lines changes nothing and emits nothing; the schedule stays well formed |
| Inbound.RunLinesAppend | client/client.js:74-83 | running two batches of lines one after the other is running them together |
| Inbound.RunLinesSnoc | client/client.js:74-83 | one more line runs on the schedule the earlier lines left |
| Inbound.Receive | client/client.js:69-83 | after a data event the kept buffer holds no newline |
| Inbound.OnData | client/client.js:69-85 | the loop dispatches newline-free lines in buffer order, keeps a newline-free tail, and the lines joined by newlines, plus a newline and the tail, are the old buffer plus the data |
| Inbound.CutOne | client/client.js:75-81 | taking the text before the first newline and cutting after it keeps the buffer accounted for |
| Inbound.ReceiveTwice | client/client.js:67-85 | two data events do what one event with both pieces does |
| Inbound.ReceiveChunked | client/client.js:67-85 | any cutting of the decoded text into events runs the same commands in the same order and leaves the same tail |
| Inbound.ReceiveAllWellFormed | client/client.js:67-85 | every schedule reached through the socket's data events is well formed |
| Inbound.ChunkingIrrelevant | client/client.js:67-85 | two cuttings of the same stream on a fresh connection behave identically |

## Findings

| source | as written | input that shows it | evidently intended | confidence | as-written member | corrected member |
|---|---|---|---|---|---|---|
| client/client.js:150 | the text-message handler reads `authorizedNumbers`, a name declared nowhere in the file | an SMS with body `cmd:status` from any number: evaluating the name throws a ReferenceError, so the command never runs | run the command when the sender is in a configured allow-list | not executed; likely, unless code outside this file defines a global of that name | Inbound.SmsAsWritten | Inbound.SmsCommand |

`Inbound.SmsNeverDispatched` shows the gap: a `cmd:` message from an allowed
sender is accepted by `Inbound.SmsCommand` but never dispatched as written.
`Inbound.OnSms` uses the corrected gate.

## Left out

- The socket lifecycle (connect, `close`, `error`, the 10-second reconnect timer) is event-loop I/O. The socket is a present/absent flag, and a fresh connection (`Inbound.Connect`) starts with an empty buffer. The code never clears its socket handle on `close`; that is not modelled either.
- Timers are left out. The 5-second poll, the 60-second drain and the 3-second dance delay are functions the caller invokes once per tick.
- The modem state machine and its events are external collaborators. This covers `opentunnel:OK` and `opentunnel:KO`, the exit on `3G_error`, `null:null` on a sensor transition, SMS delivery and the tunnel callbacks.
- Child processes (`reboot`, `timedatectl`, `killall pppd`) are fire-and-forget. They appear only as effects.
- The daily scheduler is external. A replaced job is only the effect `RescheduleStart(hour)` or `RescheduleStop(hour)`, and the jobs' own callbacks are not modelled.
- The structured encoder and the compact sensor encoder are asynchronous external code. They are a function parameter or an already-encoded string, so the order in which encodes complete is not modelled.
- Commands.Resume: the clock hour is a parameter. The schedule is the one current when the timer fires, as in the source, so the caller applies `Commands.Resume` to a `ResumeLater(reply)` effect at that moment. Other events that interleave during the 3 seconds are not modelled.
- Strings.ToLower: only ASCII letters are mapped. JavaScript's full Unicode case mapping is not modelled.
- Strings.ParseInt: only a leading run of digits is read. Leading blanks and signs are not handled, but only digit strings ever reach it.
- Outbound.Drain: one write outcome is given per drained message. A failed write's callback is taken to run after the loop, in write order. Interleaving with other events' callbacks is not modelled.
- Signal.PollTick: the network type is the value read at the tick. That the modem query answers asynchronously is not modelled.
- Logging (`console.log`, `debug`) and the private configuration file are left out. The phone number, the allow-list and the modem/sensor states are parameters.
- Framing.DeframeChunked: a data event is modelled as already-decoded text. The source decodes each event's bytes on its own (`data.toString()`, line 71), so a multi-byte UTF-8 character cut between two events reaches the interpreter as replacement characters. Line count and order are unaffected, since a newline byte never occurs inside a multi-byte character, but line contents are. The lemma holds for pieces cut at character boundaries.
- Inbound.ReceiveTwice: as for Framing.DeframeChunked, the two pieces are cut at character boundaries.
- Inbound.ReceiveChunked: as for Framing.DeframeChunked, every chunk is cut at a character boundary.
- Inbound.ChunkingIrrelevant: as for Framing.DeframeChunked, every chunk is cut at a character boundary.

=== FILE: commands.dfy ===
/**
 The command interpreter (`commandHandler`) and the restart dance
 (`restart6senseIfNeeded`). A command is its list of lower-cased arguments;
 dispatch is on the argument count first and the command name second. The
 interpreter is a pure function from the current schedule and the arguments to
 the new schedule and the list of side effects, in the order the handler
 performs them.
 */
module Commands {
  import opened Wrappers
  import opened Strings
  import opened Outbound

  /**
   The measurement schedule: seconds between measurements, and the wake and
   sleep hours kept as the digit strings the operator sent (they are parsed
   only when compared with the clock).
   */
  datatype Config = Config(period: nat, wake: string, sleep: string)

  /** The schedule at start-up: every 10 seconds, from 07 to 16 o'clock. */
  const Initial: Config := Config(10, "07", "16")

  /** What every reachable schedule looks like: the shapes the argument checks let through. */
  predicate WellFormed(c: Config)
  {
    c.period < 100000 && DigitsUpTo(c.wake, 2) && DigitsUpTo(c.sleep, 2)
  }

  /** The side effects of a command, as data. */
  datatype Effect =
    | Reply(message: string, encoding: Encoding)           // `send(message, encoding)`
    | Reboot                                                // spawn `reboot`
    | SensorRecord(period: nat)                             // start measuring every `period` seconds
    | SensorPause
    | CloseTunnel
    | OpenTunnel(host: string, port: string, remotePort: string)
    | SetTime(time: string)                                 // spawn `timedatectl set-time <time>`
    | RescheduleStart(hour: string)                         // replace the daily wake job
    | RescheduleStop(hour: string)                          // replace the daily sleep job
    | ResumeLater(reply: string)                            // the restart dance's 3-second timer, see `Resume`

  datatype Outcome = Outcome(config: Config, effects: seq<Effect>)

  /**
   The immediate part of `restart6senseIfNeeded(reply, 'generic_encoded')`:
   the sensor is paused at once and a 3-second timer is armed, whose callback
   (`Resume`) decides whether to record and then sends the reply.
   */
  function Restart(reply: string): seq<Effect>
  {
    [SensorPause, ResumeLater(reply)]
  }

  /** `/^\d{1,5}$/`: the shape of a measurement period. */
  predicate ValidPeriod(s: string)
  {
    DigitsUpTo(s, 5)
  }

  /** `/^\d{1,2}$/`: the shape of an hour. Only the digit count is checked, so "99" passes. */
  predicate ValidHour(s: string)
  {
    DigitsUpTo(s, 2)
  }

  /**
   The clock value handed to `timedatectl`: the first `t` of the (already
   lower-cased) timestamp becomes a space, and everything from the first `.`
   on is cut off.
   */
  function TimeArg(stamp: string): (time: string)
    ensures '.' !in time && |time| <= |stamp|
    ensures time <= ReplaceFirst(stamp, 't', ' ')
    ensures |time| < |stamp| ==> ReplaceFirst(stamp, 't', ' ')[|time|] == '.'
  {
    Before(ReplaceFirst(stamp, 't', ' '), '.')
  }

  /** The commands the interpreter knows, each with the argument count it is dispatched under. */
  predicate Recognised(args: seq<string>)
  {
    (|args| == 1 && args[0] in ["status", "reboot", "resumerecord", "pauserecord", "closetunnel"])
    || (|args| == 2 && args[0] in ["changeperiod", "changestarttime", "changestoptime", "date"])
    || (|args| == 4 && args[0] == "opentunnel")
    || (|args| == 5 && args[0] == "init")
  }

  /** A setter whose argument fails its shape check. */
  predicate Rejected(args: seq<string>)
  {
    |args| == 2
    && ((args[0] == "changeperiod" && !ValidPeriod(args[1]))
        || (args[0] in ["changestarttime", "changestoptime"] && !ValidHour(args[1])))
  }

  /** The three numeric fields of `init` all have the right shape. */
  predicate InitValid(args: seq<string>)
    requires |args| == 5
  {
    ValidPeriod(args[1]) && ValidHour(args[2]) && ValidHour(args[3])
  }

  /** A command that, once its checks pass, changes the schedule. */
  predicate Reconfigures(args: seq<string>)
  {
    (|args| == 2 && args[0] == "changeperiod" && ValidPeriod(args[1]))
    || (|args| == 2 && args[0] in ["changestarttime", "changestoptime"] && ValidHour(args[1]))
    || (|args| == 5 && args[0] == "init" && InitValid(args))
  }

  /** Commands without a parameter: none of them touches the schedule or fails a check. */
  function NoParam(cfg: Config, name: string): (r: Outcome)
    ensures r.config == cfg
    ensures r.effects == [] <==> name !in ["status", "reboot", "resumerecord", "pauserecord", "closetunnel"]
    ensures r.effects != [Reply(name + ":KO", Generic)]
    ensures forall e :: e in r.effects && e.Reply? ==> e.encoding == Generic
  {
    OkIsNotKo(name);
    if name == "status" then Outcome(cfg, [Reply(name + ":OK", Generic)])
    else if name == "reboot" then Outcome(cfg, [Reboot])
    else if name == "resumerecord" then Outcome(cfg, [SensorRecord(cfg.period), Reply(name + ":OK", Generic)])
    else if name == "pauserecord" then Outcome(cfg, [SensorPause, Reply(name + ":OK", Generic)])
    else if name == "closetunnel" then Outcome(cfg, [CloseTunnel, Reply(name + ":OK", Generic)])
    else Outcome(cfg, [])
  }

  /**
   Commands with one parameter. A setter whose argument passes its check
   assigns it, starts the restart dance with `<name>:<argument>` as the reply
   (and, for an hour, replaces the daily job afterwards); one that fails
   replies `<name>:KO` and assigns nothing. `date` is not checked.
   */
  function OneParam(cfg: Config, name: string, arg: string): (r: Outcome)
    ensures r.effects == [] <==> name !in ["changeperiod", "changestarttime", "changestoptime", "date"]
    ensures forall e :: e in r.effects && e.Reply? ==> e.encoding == Generic
  {
    if name == "changeperiod" then
      if ValidPeriod(arg) then Outcome(cfg.(period := DecimalValue(arg)), Restart(name + ":" + arg))
      else Outcome(cfg, [Reply(name + ":KO", Generic)])
    else if name == "changestarttime" then
      if ValidHour(arg) then Outcome(cfg.(wake := arg), Restart(name + ":" + arg) + [RescheduleStart(arg)])
      else Outcome(cfg, [Reply(name + ":KO", Generic)])
    else if name == "changestoptime" then
      if ValidHour(arg) then Outcome(cfg.(sleep := arg), Restart(name + ":" + arg) + [RescheduleStop(arg)])
      else Outcome(cfg, [Reply(name + ":KO", Generic)])
    else if name == "date" then
      Outcome(cfg, [SetTime(TimeArg(arg))] + Restart(name + ":" + arg))
    else Outcome(cfg, [])
  }

  /** Only a failed check answers `KO`, and only a passed one changes the schedule, keeping it well formed. */
  lemma OneParamChecks(cfg: Config, name: string, arg: string)
    ensures var r := OneParam(cfg, name, arg);
      (r.effects == [Reply(name + ":KO", Generic)] <==> Rejected([name, arg]))
      && (r.config != cfg ==> Reconfigures([name, arg]))
      && (WellFormed(cfg) ==> WellFormed(r.config))
  {
    var r := OneParam(cfg, name, arg);
    if name == "changeperiod" {
      if ValidPeriod(arg) {
        DigitsBound(arg, 5);
      }
    } else if name == "changestarttime" || name == "changestoptime" {
    } else {
      assert !Rejected([name, arg]);
    }
  }

  /**
   `init period wake sleep timestamp`: all three numeric fields are checked
   before anything happens; only then is the clock set and the whole schedule
   replaced. Any failed check means no effect and no reply at all.
   */
  function Init(cfg: Config, args: seq<string>): (r: Outcome)
    requires |args| == 5
    ensures r == Outcome(cfg, []) <==> !InitValid(args)
    ensures r.config != cfg ==> InitValid(args)
    ensures WellFormed(cfg) ==> WellFormed(r.config)
    ensures forall e :: e in r.effects ==> !e.Reply?
  {
    if InitValid(args) then
      Outcome(Config(DecimalValue(args[1]), args[2], args[3]), [SetTime(TimeArg(args[4]))] + Restart("init:OK"))
    else Outcome(cfg, [])
  }

  /**
   `commandHandler`: dispatch on the argument count, then on the name. Unknown
   counts and unknown names are dropped silently; only a setter's failed check
   answers, with `<name>:KO`.
   */
  function Handle(cfg: Config, args: seq<string>): (r: Outcome)
    ensures !Recognised(args) ==> r == Outcome(cfg, [])
    ensures r == Outcome(cfg, []) <==> !Recognised(args) || (|args| == 5 && args[0] == "init" && !InitValid(args))
    ensures |args| >= 1 && r.effects == [Reply(args[0] + ":KO", Generic)] <==> Rejected(args)
    ensures Rejected(args) ==> r.config == cfg
    ensures r.config != cfg ==> Reconfigures(args)
    ensures WellFormed(cfg) ==> WellFormed(r.config)
    ensures forall e :: e in r.effects && e.Reply? ==> e.encoding == Generic
  {
    if |args| == 1 then NoParam(cfg, args[0])
    else if |args| == 2 then OneParamChecks(cfg, args[0], args[1]); OneParam(cfg, args[0], args[1])
    else if |args| == 4 then
      if args[0] == "opentunnel" then Outcome(cfg, [OpenTunnel(args[1], args[2], args[3])]) else Outcome(cfg, [])
    else if |args| == 5 then
      if args[0] == "init" then Init(cfg, args) else Outcome(cfg, [])
    else Outcome(cfg, [])
  }

  /** A success reply is never the failure reply. */
  lemma OkIsNotKo(name: string)
    ensures name + ":OK" != name + ":KO"
  {
    assert (name + ":OK")[|name| + 1] == 'O';
    assert (name + ":KO")[|name| + 1] == 'K';
  }

  /**
   The parameterless commands: `status` only replies; `reboot` reboots and
   sends nothing; the other three act on the sensor or the tunnel first and
   then reply `<name>:OK`.
   */
  lemma ParameterlessCommands(cfg: Config, args: seq<string>)
    requires |args| == 1
    ensures args[0] == "status" ==> Handle(cfg, args) == Outcome(cfg, [Reply(args[0] + ":OK", Generic)])
    ensures args[0] == "reboot" ==> Handle(cfg, args) == Outcome(cfg, [Reboot])
    ensures args[0] == "resumerecord" ==>
      Handle(cfg, args) == Outcome(cfg, [SensorRecord(cfg.period), Reply(args[0] + ":OK", Generic)])
    ensures args[0] == "pauserecord" ==> Handle(cfg, args) == Outcome(cfg, [SensorPause, Reply(args[0] + ":OK", Generic)])
    ensures args[0] == "closetunnel" ==> Handle(cfg, args) == Outcome(cfg, [CloseTunnel, Reply(args[0] + ":OK", Generic)])
  {
  }

  /** `changeperiod` takes one to five digits, so the new period is their value, at most 99999. */
  lemma ChangePeriod(cfg: Config, args: seq<string>)
    requires |args| == 2 && args[0] == "changeperiod"
    ensures var r := Handle(cfg, args);
      if ValidPeriod(args[1]) then
        r.config == cfg.(period := DecimalValue(args[1])) && r.config.period <= 99999
        && r.effects == [SensorPause, ResumeLater(args[0] + ":" + args[1])]
      else
        r == Outcome(cfg, [Reply(args[0] + ":KO", Generic)])
  {
    if ValidPeriod(args[1]) {
      DigitsBound(args[1], 5);
    }
  }

  /** `changestarttime` and `changestoptime`: assign the hour, restart, then replace the matching daily job. */
  lemma ChangeHours(cfg: Config, args: seq<string>)
    requires |args| == 2 && args[0] in ["changestarttime", "changestoptime"]
    ensures var r := Handle(cfg, args);
      var hour := args[1];
      if ValidHour(hour) then
        r.config == (if args[0] == "changestarttime" then cfg.(wake := hour) else cfg.(sleep := hour))
        && r.effects == [SensorPause, ResumeLater(args[0] + ":" + hour),
                         if args[0] == "changestarttime" then RescheduleStart(hour) else RescheduleStop(hour)]
      else
        r == Outcome(cfg, [Reply(args[0] + ":KO", Generic)])
  {
  }

  /** The hour check counts digits only: "99" is taken as a wake hour. */
  lemma HourCheckCountsDigits(cfg: Config)
    ensures Handle(cfg, ["changestarttime", "99"]).config.wake == "99"
  {
  }

  /**
   `init` is all or nothing: with any field of the wrong shape the schedule
   stays as it was and nothing at all is emitted (not even a `KO`); otherwise
   the clock is set, the schedule replaced and the dance started. It does not
   replace the daily jobs.
   */
  lemma InitAllOrNothing(cfg: Config, args: seq<string>)
    requires |args| == 5 && args[0] == "init"
    ensures var r := Handle(cfg, args);
      (!InitValid(args) <==> r == Outcome(cfg, []))
      && (InitValid(args) ==>
            r.config == Config(DecimalValue(args[1]), args[2], args[3])
            && r.effects == [SetTime(TimeArg(args[4])), SensorPause, ResumeLater("init:OK")])
    ensures forall e :: e in Handle(cfg, args).effects ==> !e.RescheduleStart? && !e.RescheduleStop?
  {
  }

  /** `opentunnel` is only heard with exactly three parameters, passed on in order. */
  lemma OpenTunnelArity(cfg: Config, args: seq<string>)
    requires |args| >= 1 && args[0] == "opentunnel"
    ensures |args| == 4 ==> Handle(cfg, args) == Outcome(cfg, [OpenTunnel(args[1], args[2], args[3])])
    ensures |args| != 4 ==> Handle(cfg, args) == Outcome(cfg, [])
  {
  }

  /** `date` is not checked: the clock is set from the argument and the reply echoes it. */
  lemma DateUnchecked(cfg: Config, args: seq<string>)
    requires |args| == 2 && args[0] == "date"
    ensures Handle(cfg, args) == Outcome(cfg, [SetTime(TimeArg(args[1])), SensorPause, ResumeLater(args[0] + ":" + args[1])])
  {
  }

  /**
   An ISO timestamp `<day>T<clock>.<fraction>`, lower-cased on the way in,
   reaches `timedatectl` as `<day> <clock>`.
   */
  lemma TimeArgIso(day: string, clock: string, fraction: string)
    requires 't' !in day && '.' !in day && '.' !in clock
    ensures TimeArg(day + "t" + clock + "." + fraction) == day + " " + clock
  {
    var tail := clock + ['.'] + fraction;
    var kept := day + [' '] + clock;
    Associate(day + ['t'], clock + ['.'], fraction);
    Associate(day + ['t'], clock, ['.']);
    ReplaceAt(day, 't', tail, ' ');
    Associate(day + [' '], clock + ['.'], fraction);
    Associate(day + [' '], clock, ['.']);
    NotInJoined(day, clock, ' ', '.');
    BeforeAt(kept, '.', fraction);
  }

  lemma NotInJoined(a: string, b: string, x: char, c: char)
    requires c !in a && c !in b && x != c
    ensures c !in a + [x] + b
  {
  }

  lemma ReplaceAt(p: string, a: char, t: string, b: char)
    requires a !in p
    ensures ReplaceFirst(p + [a] + t, a, b) == p + [b] + t
  {
    IndexOfAfter(p, a, t);
  }

  /**
   The hour test of the restart dance: `wake <= hour < sleep` after parsing
   both bounds; a bound that does not parse (`NaN`) makes the test false.
   */
  predicate InWindow(cfg: Config, hour: nat)
  {
    match (ParseInt(cfg.wake), ParseInt(cfg.sleep))
    case (Some(w), Some(s)) => w <= hour < s
    case _ => false
  }

  /** For a well-formed schedule the test compares the hour with the bounds' decimal values. */
  lemma InWindowDecimal(cfg: Config, hour: nat)
    requires WellFormed(cfg)
    ensures InWindow(cfg, hour) <==> DecimalValue(cfg.wake) <= hour < DecimalValue(cfg.sleep)
  {
    ParseIntOfDigits(cfg.wake);
    ParseIntOfDigits(cfg.sleep);
  }

  /**
   The callback of the restart dance's 3-second timer: with the schedule and
   the clock hour as they are when it fires, resume recording at the current
   period only inside the window, then send the reply in every case.
   */
  function Resume(cfg: Config, hour: nat, reply: string): (effects: seq<Effect>)
    ensures |effects| == if InWindow(cfg, hour) then 2 else 1
    ensures effects[|effects| - 1] == Reply(reply, Generic)
    ensures SensorRecord(cfg.period) in effects <==> InWindow(cfg, hour)
    ensures forall e :: e in effects ==> e == SensorRecord(cfg.period) || e == Reply(reply, Generic)
  {
    (if InWindow(cfg, hour) then [SensorRecord(cfg.period)] else []) + [Reply(reply, Generic)]
  }

  /**
   `changeperiod 42` inside the window: the sensor is paused at once, and when
   the timer fires it records every 42 seconds and replies `changeperiod:42`.
   */
  lemma ChangePeriodExample(hour: nat)
    requires 7 <= hour < 16
    ensures var r := Handle(Initial, ["changeperiod", "42"]);
      r.config.period == 42
      && r.effects == [SensorPause, ResumeLater("changeperiod" + ":" + "42")]
      && Resume(r.config, hour, "changeperiod" + ":" + "42")
         == [SensorRecord(42), Reply("changeperiod" + ":" + "42", Generic)]
  {
    TwoDigits('4', '2');
    TwoDigits('0', '7');
    TwoDigits('1', '6');
    InWindowDecimal(Initial, hour);
  }

  lemma TwoDigits(a: char, b: char)
    requires IsDigit(a) && IsDigit(b)
    ensures AllDigits([a, b]) && DecimalValue([a, b]) == 10 * (a as int - '0' as int) + (b as int - '0' as int)
  {
    assert [a, b][..1] == [a];
    assert [a][..0] == [];
  }

  /** A schedule whose wake hour is past the end of the day never resumes recording. */
  lemma LateWakeNeverRecords(cfg: Config, hour: nat)
    requires WellFormed(cfg) && hour < 24 && DecimalValue(cfg.wake) >= 24
    ensures forall reply :: SensorRecord(cfg.period) !in Resume(cfg, hour, reply)
  {
    InWindowDecimal(cfg, hour);
  }

  /** The start-up schedule is well formed, so every schedule the interpreter reaches is. */
  lemma InitialWellFormed()
    ensures WellFormed(Initial)
  {
  }
}

=== FILE: framing.dfy ===
/**
 Newline framing of the TCP stream. A sender writes each message followed by
 `\n`; the receiver keeps a buffer, cuts it at every `\n` and keeps the
 unfinished tail for the next data event.
 */
module Framing {
  import opened Strings

  const NL: char := '\n'

  /** The bytes written for `lines`: each one followed by a newline. */
  function Frame(lines: seq<string>): string
  {
    if |lines| == 0 then "" else lines[0] + [NL] + Frame(lines[1..])
  }

  /** No line holds a newline. */
  predicate Lines(lines: seq<string>)
  {
    forall k :: 0 <= k < |lines| ==> NL !in lines[k]
  }

  /** Framing one more line in front, with whatever follows the frame. */
  lemma FrameCons(l: string, lines: seq<string>, rest: string, t: string)
    requires Frame(lines) + rest == t
    ensures Frame([l] + lines) + rest == l + [NL] + t
  {
    assert ([l] + lines)[1..] == lines;
  }

  lemma LinesCons(l: string, lines: seq<string>)
    requires NL !in l && Lines(lines)
    ensures Lines([l] + lines)
  {
    assert forall k :: 1 <= k < |[l] + lines| ==> ([l] + lines)[k] == lines[k - 1];
  }

  lemma LinesAppend(a: seq<string>, b: seq<string>)
    requires Lines(a) && Lines(b)
    ensures Lines(a + b)
  {
    assert forall k :: |a| <= k < |a + b| ==> (a + b)[k] == b[k - |a|];
  }

  /** A string around one of its positions. */
  lemma Around(s: string, i: nat)
    requires i < |s|
    ensures s == s[..i] + [s[i]] + s[i + 1..]
  {
  }

  lemma {:induction false} FrameAppend(a: seq<string>, b: seq<string>)
    ensures Frame(a + b) == Frame(a) + Frame(b)
    decreases |a|
  {
    if |a| > 0 {
      assert (a + b)[1..] == a[1..] + b;
      FrameAppend(a[1..], b);
    } else {
      assert a + b == b;
    }
  }

  /** Framing `lines` and then `more`, followed by a tail. */
  lemma FrameAppendRest(lines: seq<string>, more: seq<string>, rest: string, t: string)
    requires Frame(more) + rest == t
    ensures Frame(lines + more) + rest == Frame(lines) + t
  {
    FrameAppend(lines, more);
  }

  /** A non-empty frame is the lines joined by newlines plus one final newline. */
  lemma {:induction false} FrameIsJoin(lines: seq<string>)
    requires |lines| >= 1
    ensures Frame(lines) == Join(lines, NL) + [NL]
    decreases |lines|
  {
    if |lines| > 1 {
      FrameIsJoin(lines[1..]);
    }
  }

  /** A receive buffer after cutting: the complete lines in order, and the unfinished tail. */
  datatype Cut = Cut(lines: seq<string>, rest: string)

  /**
   The cut the receiver makes of its buffer: every newline ends one line, the
   newline itself is dropped, and what follows the last newline stays behind.
   */
  function Deframe(s: string): (c: Cut)
    ensures Lines(c.lines) && NL !in c.rest
    ensures Frame(c.lines) + c.rest == s
    decreases |s|
  {
    var i := IndexOf(s, NL);
    if i == -1 then Cut([], s)
    else
      var c := Deframe(s[i + 1..]);
      FrameCons(s[..i], c.lines, c.rest, s[i + 1..]);
      Around(s, i);
      LinesCons(s[..i], c.lines);
      Cut([s[..i]] + c.lines, c.rest)
  }

  /**
   The cut is the ONLY way to read a string as newline-free lines, each ending
   in a newline, followed by a newline-free tail: deframing undoes framing.
   */
  lemma {:induction false} DeframeFrame(lines: seq<string>, rest: string)
    requires Lines(lines) && NL !in rest
    ensures Deframe(Frame(lines) + rest) == Cut(lines, rest)
    decreases |lines|
  {
    if |lines| > 0 {
      var l := lines[0];
      var tail := Frame(lines[1..]) + rest;
      assert NL !in l;
      assert [l] + lines[1..] == lines;
      FrameCons(l, lines[1..], rest, tail);
      IndexOfAfter(l, NL, tail);
      DropAfter(l, tail);
      DeframeFrame(lines[1..], rest);
    }
  }

  /** The pieces on either side of the newline that follows `l`. */
  lemma DropAfter(l: string, t: string)
    ensures (l + [NL] + t)[..|l|] == l
    ensures (l + [NL] + t)[|l| + 1..] == t
  {
  }

  /**
   Data arriving in two pieces is cut exactly as if it had arrived at once:
   the lines of the second event follow those of the first, and the tails agree.
   */
  lemma DeframeChunked(buffer: string, d1: string, d2: string)
    ensures
      var c1 := Deframe(buffer + d1);
      var c2 := Deframe(c1.rest + d2);
      Deframe(buffer + (d1 + d2)) == Cut(c1.lines + c2.lines, c2.rest)
  {
    var c1 := Deframe(buffer + d1);
    var c2 := Deframe(c1.rest + d2);
    FrameAppendRest(c1.lines, c2.lines, c2.rest, c1.rest + d2);
    Associate(Frame(c1.lines), c1.rest, d2);
    LinesAppend(c1.lines, c2.lines);
    DeframeFrame(c1.lines + c2.lines, c2.rest);
    Associate(buffer, d1, d2);
  }
}

=== FILE: inbound.dfy ===
/**
 The inbound side: recognising command lines and command text messages, and
 the socket's `data` handler, which appends the new data to the receive
 buffer, cuts off every complete line, runs the command lines through the
 interpreter in order and keeps the unfinished tail.
 */
module Inbound {
  import opened Wrappers
  import opened Strings
  import opened Framing
  import opened Commands

  const Prefix: string := "cmd:"

  /** The first four characters are exactly `cmd:` (`slice(0, 4)` of a shorter line is shorter, so it never matches). */
  predicate IsCommandLine(line: string)
  {
    |line| >= 4 && line[..4] == Prefix
  }

  /**
   A line's command arguments: for a `cmd:` line, the rest of it lower-cased
   and split at every single space (so at least one argument, possibly empty
   ones); for any other line, nothing.
   */
  function CommandArgs(line: string): (r: Option<seq<string>>)
    ensures r.Some? <==> IsCommandLine(line)
    ensures r.Some? ==> |r.value| >= 1 && Separated(r.value, ' ')
    ensures r.Some? ==> Join(r.value, ' ') == ToLower(line[4..])
  {
    if IsCommandLine(line) then
      ToLowerDrop(line, 4);
      Some(Split(ToLower(line)[4..], ' '))
    else None
  }

  /** Lower-case, space-free arguments survive being sent as a command line. */
  lemma {:induction false} CommandArgsRoundTrip(args: seq<string>)
    requires |args| >= 1 && Separated(args, ' ')
    requires forall k, j :: 0 <= k < |args| && 0 <= j < |args[k]| ==> !IsUpper(args[k][j])
    ensures CommandArgs(Prefix + Join(args, ' ')) == Some(args)
  {
    var line := Prefix + Join(args, ' ');
    assert line[..4] == Prefix;
    assert line[4..] == Join(args, ' ');
    JoinNoUpper(args, ' ');
    ToLowerFixed(Join(args, ' '));
    ToLowerDrop(line, 4);
    SplitJoin(args, ' ');
  }

  lemma {:induction false} JoinNoUpper(parts: seq<string>, sep: char)
    requires !IsUpper(sep)
    requires forall k, j :: 0 <= k < |parts| && 0 <= j < |parts[k]| ==> !IsUpper(parts[k][j])
    ensures forall j :: 0 <= j < |Join(parts, sep)| ==> !IsUpper(Join(parts, sep)[j])
    decreases |parts|
  {
    if |parts| > 1 {
      JoinNoUpper(parts[1..], sep);
      var a, t := parts[0], Join(parts[1..], sep);
      assert Join(parts, sep) == a + [sep] + t;
      assert forall j :: 0 <= j < |a + [sep] + t| ==>
        (a + [sep] + t)[j] == (if j < |a| then a[j] else if j == |a| then sep else t[j - |a| - 1]);
    } else if |parts| == 1 {
      assert forall j :: 0 <= j < |parts[0]| ==> !IsUpper(parts[0][j]);
    }
  }

  /** An incoming text message. */
  datatype Sms = Sms(body: string, from: string)

  /** A text message is a command when its body is a command line and its sender is on the allow-list. */
  function SmsCommand(sms: Sms, allowed: seq<string>): (r: Option<seq<string>>)
    ensures r.Some? <==> IsCommandLine(sms.body) && sms.from in allowed
    ensures r.Some? ==> r == CommandArgs(sms.body)
  {
    if IsCommandLine(sms.body) && sms.from in allowed then CommandArgs(sms.body) else None
  }

  /** What the text-message handler does as written: ignore the message, run a command, or throw. */
  datatype SmsOutcome = Ignored | Dispatched(args: seq<string>) | ReferenceError

  /**
   The handler as written names an allow-list that is declared nowhere in the
   file; evaluating an undeclared name throws. The test on the body
   comes first, so non-command messages are ignored and every command message
   throws before reaching the interpreter.
   */
  function SmsAsWritten(sms: Sms): (r: SmsOutcome)
    ensures !r.Dispatched?
    ensures r.ReferenceError? <==> IsCommandLine(sms.body)
  {
    if IsCommandLine(sms.body) then ReferenceError else Ignored
  }

  /** As written, no text message ever reaches the interpreter, even from an allowed sender. */
  lemma SmsNeverDispatched(sms: Sms, allowed: seq<string>)
    requires IsCommandLine(sms.body) && sms.from in allowed
    ensures SmsCommand(sms, allowed).Some?
    ensures !SmsAsWritten(sms).Dispatched?
  {
  }

  /**
   A text message goes through the same interpreter as a command line from
   the socket, but only when its sender is allowed; otherwise nothing happens.
   */
  function OnSms(cfg: Config, sms: Sms, allowed: seq<string>): (r: Outcome)
    ensures sms.from in allowed ==> r == Line(cfg, sms.body)
    ensures sms.from !in allowed ==> r == Outcome(cfg, [])
  {
    match SmsCommand(sms, allowed)
    case None => Outcome(cfg, [])
    case Some(args) => Handle(cfg, args)
  }

  /** The socket's receive state: the unfinished line and the schedule. */
  datatype Receiver = Receiver(buffer: string, config: Config)

  /** A fresh connection starts with an empty buffer. */
  function Connect(cfg: Config): Receiver
  {
    Receiver("", cfg)
  }

  /** One received line: a command line goes through the interpreter; any other line is ignored. */
  function Line(cfg: Config, line: string): (r: Outcome)
    ensures !IsCommandLine(line) ==> r == Outcome(cfg, [])
    ensures IsCommandLine(line) ==> r == Handle(cfg, CommandArgs(line).value)
    ensures WellFormed(cfg) ==> WellFormed(r.config)
  {
    match CommandArgs(line)
    case None => Outcome(cfg, [])
    case Some(args) => Handle(cfg, args)
  }

  /** A `cmd:` line from the socket runs exactly the command whose arguments it spells. */
  lemma CommandLineRuns(cfg: Config, args: seq<string>)
    requires |args| >= 1 && Separated(args, ' ')
    requires forall k, j :: 0 <= k < |args| && 0 <= j < |args[k]| ==> !IsUpper(args[k][j])
    ensures Line(cfg, Prefix + Join(args, ' ')) == Handle(cfg, args)
  {
    CommandArgsRoundTrip(args);
  }

  /**
   Complete lines in order, each seeing the schedule the previous ones left.
   Lines without the `cmd:` prefix change nothing and emit nothing, and the
   schedule stays well formed.
   */
  function RunLines(cfg: Config, lines: seq<string>): (r: Outcome)
    ensures (forall k :: 0 <= k < |lines| ==> !IsCommandLine(lines[k])) ==> r == Outcome(cfg, [])
    ensures WellFormed(cfg) ==> WellFormed(r.config)
    decreases |lines|
  {
    if |lines| == 0 then Outcome(cfg, [])
    else
      var first := Line(cfg, lines[0]);
      var rest := RunLines(first.config, lines[1..]);
      Outcome(rest.config, first.effects + rest.effects)
  }

  /** Running two batches of lines one after the other is running them together. */
  lemma {:induction false} RunLinesAppend(cfg: Config, a: seq<string>, b: seq<string>)
    ensures var ra := RunLines(cfg, a);
      var rb := RunLines(ra.config, b);
      RunLines(cfg, a + b) == Outcome(rb.config, ra.effects + rb.effects)
    decreases |a|
  {
    if |a| == 0 {
      assert a + b == b;
    } else {
      var first := Line(cfg, a[0]);
      var r1 := RunLines(first.config, a[1..]);
      var r2 := RunLines(r1.config, b);
      RunLinesAppend(first.config, a[1..], b);
      ConsAppend(a, b);
      Associate(first.effects, r1.effects, r2.effects);
    }
  }

  lemma ConsAppend(a: seq<string>, b: seq<string>)
    requires |a| > 0
    ensures (a + b)[0] == a[0] && (a + b)[1..] == a[1..] + b
  {
  }

  /** One more line after a batch. */
  lemma RunLinesSnoc(cfg: Config, lines: seq<string>, line: string)
    ensures var r := RunLines(cfg, lines);
      var step := Line(r.config, line);
      RunLines(cfg, lines + [line]) == Outcome(step.config, r.effects + step.effects)
  {
    RunLinesAppend(cfg, lines, [line]);
    var r := RunLines(cfg, lines);
    var step := Line(r.config, line);
    assert RunLines(r.config, [line]) == Outcome(step.config, step.effects + []);
    assert step.effects + [] == step.effects;
  }

  /** What one data event leaves behind and does. */
  datatype Received = Received(receiver: Receiver, effects: seq<Effect>)

  /** One data event: cut the buffer plus the new data, run the complete lines, keep the tail. */
  function Receive(st: Receiver, data: string): (r: Received)
    ensures NL !in r.receiver.buffer
  {
    var cut := Deframe(st.buffer + data);
    var run := RunLines(st.config, cut.lines);
    Received(Receiver(cut.rest, run.config), run.effects)
  }

  /**
   The socket's `data` handler, loop for loop: append the data, and while the
   buffer holds a newline, take the text before it as a line, run it if it is
   a command line, and cut the buffer after the newline. `lines` records every
   complete line in the order it was taken.
   */
  method OnData(st: Receiver, data: string) returns (st': Receiver, lines: seq<string>, effects: seq<Effect>)
    ensures Lines(lines) && NL !in st'.buffer
    ensures Frame(lines) + st'.buffer == st.buffer + data
    ensures |lines| > 0 ==> Join(lines, NL) + [NL] + st'.buffer == st.buffer + data
    ensures Cut(lines, st'.buffer) == Deframe(st.buffer + data)
    ensures Received(st', effects) == Receive(st, data)
  {
    var chunk := st.buffer + data;
    var cfg := st.config;
    lines := [];
    effects := [];
    var index := IndexOf(chunk, NL);
    while index > -1
      invariant index == IndexOf(chunk, NL)
      invariant Lines(lines)
      invariant Frame(lines) + chunk == st.buffer + data
      invariant RunLines(st.config, lines) == Outcome(cfg, effects)
      decreases |chunk|
    {
      var message := chunk[..index];
      var step := Line(cfg, message);
      RunLinesSnoc(st.config, lines, message);
      cfg, effects := step.config, effects + step.effects;
      CutOne(lines, chunk, index, st.buffer + data);
      lines := lines + [message];
      chunk := chunk[index + 1..];
      index := IndexOf(chunk, NL);
    }
    st' := Receiver(chunk, cfg);
    DeframeFrame(lines, chunk);
    if |lines| > 0 {
      FrameIsJoin(lines);
    }
  }

  /** Taking the line before the first newline keeps the buffer accounted for. */
  lemma CutOne(lines: seq<string>, chunk: string, index: int, whole: string)
    requires index == IndexOf(chunk, NL) && index >= 0
    requires Lines(lines) && Frame(lines) + chunk == whole
    ensures Lines(lines + [chunk[..index]])
    ensures Frame(lines + [chunk[..index]]) + chunk[index + 1..] == whole
  {
    var message, tail := chunk[..index], chunk[index + 1..];
    FrameCons(message, [], tail, tail);
    Around(chunk, index);
    FrameAppendRest(lines, [message], tail, chunk);
    LinesAppend(lines, [message]);
  }

  /** Data events one after another, from a given receive state. */
  function ReceiveAll(st: Receiver, chunks: seq<string>): Received
    decreases |chunks|
  {
    if |chunks| == 0 then Received(st, [])
    else
      var first := Receive(st, chunks[0]);
      var rest := ReceiveAll(first.receiver, chunks[1..]);
      Received(rest.receiver, first.effects + rest.effects)
  }

  /** All the chunks glued together. */
  function Concat(chunks: seq<string>): string
  {
    if |chunks| == 0 then "" else chunks[0] + Concat(chunks[1..])
  }

  /**
   However the stream is cut into data events, the same commands run in the
   same order and the same tail is left over: the result depends only on the
   bytes received.
   */
  lemma {:induction false} ReceiveChunked(st: Receiver, chunks: seq<string>)
    requires NL !in st.buffer
    ensures ReceiveAll(st, chunks) == Receive(st, Concat(chunks))
    decreases |chunks|
  {
    if |chunks| == 0 {
      DeframeFrame([], st.buffer);
      assert st.buffer + "" == st.buffer;
    } else {
      var first := Receive(st, chunks[0]);
      ReceiveChunked(first.receiver, chunks[1..]);
      ReceiveTwice(st, chunks[0], Concat(chunks[1..]));
      assert Concat(chunks) == chunks[0] + Concat(chunks[1..]);
    }
  }

  /** Two data events in a row do what one event with both pieces does. */
  lemma ReceiveTwice(st: Receiver, d1: string, d2: string)
    ensures var r1 := Receive(st, d1);
      var r2 := Receive(r1.receiver, d2);
      Receive(st, d1 + d2) == Received(r2.receiver, r1.effects + r2.effects)
  {
    var c1 := Deframe(st.buffer + d1);
    var c2 := Deframe(c1.rest + d2);
    DeframeChunked(st.buffer, d1, d2);
    RunLinesAppend(st.config, c1.lines, c2.lines);
  }

  /** Every schedule the socket's commands lead to is well formed, however the stream is cut. */
  lemma {:induction false} ReceiveAllWellFormed(st: Receiver, chunks: seq<string>)
    requires WellFormed(st.config)
    ensures WellFormed(ReceiveAll(st, chunks).receiver.config)
    decreases |chunks|
  {
    if |chunks| > 0 {
      ReceiveAllWellFormed(Receive(st, chunks[0]).receiver, chunks[1..]);
    }
  }

  /** Corollary: two different cuts of the same stream on a fresh connection behave identically. */
  lemma ChunkingIrrelevant(cfg: Config, chunks1: seq<string>, chunks2: seq<string>)
    requires Concat(chunks1) == Concat(chunks2)
    ensures ReceiveAll(Connect(cfg), chunks1) == ReceiveAll(Connect(cfg), chunks2)
  {
    ReceiveChunked(Connect(cfg), chunks1);
    ReceiveChunked(Connect(cfg), chunks2);
  }
}

=== FILE: outbound.dfy ===
/**
 The outbound path: `send` puts a one-character type tag in front of a message,
 `sendTCP` writes it followed by a newline, a failed write parks the message in
 an in-memory queue, and a periodic drain empties that queue through `sendTCP`
 again. The socket is an abstract present/absent flag and each write's outcome
 is an input (`writeOk`), because both belong to the network.
 */
module Outbound {
  import opened Wrappers
  import opened Strings
  import opened Framing

  /** How `send` encodes a message: the structured codec, or the text as is. */
  datatype Encoding = Generic | Clear

  /** Type tags: raw text, compact sensor encoding, structured encoding. */
  const RawTag: char := '0'
  const CompactTag: char := '1'
  const GenericTag: char := '2'

  datatype Socket = NoSocket | Connected

  /**
   The sender's state: whether a socket exists, the messages waiting for a
   retry (oldest first), and the bytes written successfully so far.
   */
  datatype Outbox = Outbox(socket: Socket, queue: seq<string>, wire: string)

  /**
   `sendTCP`: with a socket, write `message` and a newline; if the write
   reports an error, append the message (without the newline) to the queue.
   With no socket the message is dropped, not queued.
   */
  function SendTCP(o: Outbox, message: string, writeOk: bool): (o': Outbox)
    ensures o'.socket == o.socket
    ensures o.socket == NoSocket ==> o' == o
    ensures o.socket == Connected && writeOk ==> o'.queue == o.queue && o'.wire == o.wire + Frame([message])
    ensures o.socket == Connected && !writeOk ==> o'.wire == o.wire && o'.queue == o.queue + [message]
  {
    match o.socket
    case NoSocket => o
    case Connected =>
      if writeOk then o.(wire := o.wire + message + [NL])
      else o.(queue := o.queue + [message])
  }

  /** While a socket exists a message is never lost: it is either on the wire or at the back of the queue. */
  lemma SendTCPKeeps(o: Outbox, message: string, writeOk: bool)
    requires o.socket == Connected
    ensures var o' := SendTCP(o, message, writeOk);
      (o'.wire == o.wire + message + "\n" && o'.queue == o.queue)
      || (o'.wire == o.wire && |o'.queue| > 0 && o'.queue[|o'.queue| - 1] == message)
  {
  }

  /**
   The status envelope the structured codec receives: the message split at
   `:` into a command and a result (missing when there is no `:`), with the
   modem's and the sensor's states.
   */
  datatype Envelope = Envelope(command: string, result: Option<string>, modemState: string, sensorState: string)

  function EnvelopeOf(message: string, modemState: string, sensorState: string): (e: Envelope)
    ensures e.command == Before(message, ':')
    ensures e.result.None? <==> ':' !in message
    ensures e.result.Some? ==> e.result.value == Before(message[IndexOf(message, ':') + 1..], ':')
    ensures e.modemState == modemState && e.sensorState == sensorState
  {
    var parts := Split(message, ':');
    BeforeIsFirstPart(message, ':');
    if |parts| > 1 then
      var i := IndexOf(message, ':');
      assert i != -1;
      BeforeIsFirstPart(message[i + 1..], ':');
      Envelope(parts[0], Some(parts[1]), modemState, sensorState)
    else
      assert ':' !in message by { assert Join(parts, ':') == parts[0]; }
      Envelope(parts[0], None, modemState, sensorState)
  }

  /** A `<command>:<result>` reply reaches the codec as exactly that command and result. */
  lemma EnvelopeOfReply(command: string, result: string, modemState: string, sensorState: string)
    requires ':' !in command && ':' !in result
    ensures EnvelopeOf(command + ":" + result, modemState, sensorState)
         == Envelope(command, Some(result), modemState, sensorState)
  {
    SplitJoin([command, result], ':');
    assert Join([command, result], ':') == command + ":" + result;
  }

  /**
   Only the first two `:`-separated pieces reach the codec: a reply whose
   result itself holds a `:` (such as a `date` echo with a clock time) loses
   everything from that second `:` on.
   */
  lemma EnvelopeTruncates(command: string, result: string, more: string, modemState: string, sensorState: string)
    requires ':' !in command && ':' !in result
    ensures EnvelopeOf(command + ":" + result + ":" + more, modemState, sensorState).result == Some(result)
  {
    var tail := result + [':'] + more;
    var m := command + [':'] + tail;
    Regroup(command, result, more, ':');
    AfterAt(command, ':', tail);
    BeforeAt(result, ':', more);
    assert ':' in m;
  }

  lemma Regroup(a: string, b: string, c: string, x: char)
    ensures a + [x] + b + [x] + c == a + [x] + (b + [x] + c)
  {
    Associate(a + [x], b + [x], c);
    Associate(a + [x], b, [x]);
  }

  /**
   `send`: the line handed to `sendTCP`. `Clear` messages go out as `0` and the
   text; `Generic` ones as `2` and whatever the structured codec (`encode`,
   outside this model) makes of the envelope.
   */
  function Tagged(message: string, enc: Encoding, encode: Envelope -> string,
                  modemState: string, sensorState: string): (line: string)
    ensures |line| >= 1
    ensures line[0] == (if enc == Clear then RawTag else GenericTag)
    ensures enc == Clear ==> line[1..] == message
    ensures enc == Generic ==> line[1..] == encode(EnvelopeOf(message, modemState, sensorState))
  {
    match enc
    case Clear => [RawTag] + message
    case Generic => [GenericTag] + encode(EnvelopeOf(message, modemState, sensorState))
  }

  /** What a receiver makes of one line: its tag and payload, or no tag at all. */
  datatype Payload = Raw(text: string) | Compact(text: string) | Structured(text: string) | Untagged(line: string)

  function PayloadOf(line: string): Payload
  {
    if |line| > 0 && line[0] == RawTag then Raw(line[1..])
    else if |line| > 0 && line[0] == CompactTag then Compact(line[1..])
    else if |line| > 0 && line[0] == GenericTag then Structured(line[1..])
    else Untagged(line)
  }

  /** The tag `send` writes is the one a receiver reads back, with the payload intact. */
  lemma TaggedRoundTrip(message: string, enc: Encoding, encode: Envelope -> string,
                        modemState: string, sensorState: string)
    ensures var line := Tagged(message, enc, encode, modemState, sensorState);
      PayloadOf(line) == (if enc == Clear then Raw(message)
                          else Structured(encode(EnvelopeOf(message, modemState, sensorState))))
  {
  }

  /** A sensor record written behind tag `1` reads back as a compact payload. */
  lemma CompactRoundTrip(encoded: string)
    ensures PayloadOf([CompactTag] + encoded) == Compact(encoded)
  {
  }

  /** `send`: tag the message and hand it to `sendTCP`. */
  function Send(o: Outbox, message: string, enc: Encoding, encode: Envelope -> string,
                modemState: string, sensorState: string, writeOk: bool): (o': Outbox)
    ensures o'.socket == o.socket
    ensures o.socket == NoSocket ==> o' == o
    ensures o.socket == Connected && writeOk ==>
      o'.queue == o.queue && o'.wire == o.wire + Frame([Tagged(message, enc, encode, modemState, sensorState)])
    ensures o.socket == Connected && !writeOk ==>
      o'.wire == o.wire && o'.queue == o.queue + [Tagged(message, enc, encode, modemState, sensorState)]
  {
    SendTCP(o, Tagged(message, enc, encode, modemState, sensorState), writeOk)
  }

  /** A processed sensor record, already compact-encoded, goes out behind tag `1`. */
  function SendMeasurement(o: Outbox, encoded: string, writeOk: bool): (o': Outbox)
    ensures o'.socket == o.socket
    ensures o.socket == NoSocket ==> o' == o
    ensures o.socket == Connected && writeOk ==>
      o'.queue == o.queue && o'.wire == o.wire + Frame([[CompactTag] + encoded])
    ensures o.socket == Connected && !writeOk ==>
      o'.wire == o.wire && o'.queue == o.queue + [[CompactTag] + encoded]
  {
    SendTCP(o, [CompactTag] + encoded, writeOk)
  }

  /**
   The first line after connecting names the device: `phoneNumber=<number>`,
   written with no type tag.
   */
  function OnConnect(o: Outbox, phoneNumber: string, writeOk: bool): (o': Outbox)
    ensures o'.socket == Connected
    ensures writeOk ==> o'.wire == o.wire + Frame(["phoneNumber=" + phoneNumber]) && o'.queue == o.queue
    ensures !writeOk ==> o'.wire == o.wire && o'.queue == o.queue + ["phoneNumber=" + phoneNumber]
  {
    SendTCP(o.(socket := Connected), "phoneNumber=" + phoneNumber, writeOk)
  }

  /** The messages of `q` whose write outcome in `oks` is `outcome`, in queue order. */
  function Select(q: seq<string>, oks: seq<bool>, outcome: bool): (r: seq<string>)
    requires |oks| == |q|
  {
    if |q| == 0 then []
    else Select(q[..|q| - 1], oks[..|q| - 1], outcome)
         + (if oks[|q| - 1] == outcome then [q[|q| - 1]] else [])
  }

  /** Splitting by outcome loses no message and duplicates none. */
  lemma {:induction false} SelectPartition(q: seq<string>, oks: seq<bool>)
    requires |oks| == |q|
    ensures multiset(Select(q, oks, true)) + multiset(Select(q, oks, false)) == multiset(q)
    decreases |q|
  {
    if |q| > 0 {
      var n := |q| - 1;
      SelectPartition(q[..n], oks[..n]);
      assert q == q[..n] + [q[n]];
      PartitionStep(Select(q, oks, true), Select(q, oks, false),
                    Select(q[..n], oks[..n], true), Select(q[..n], oks[..n], false), q[..n], q[n], oks[n]);
    }
  }

  /** Adding one message to the side its outcome names adds it to the whole. */
  lemma PartitionStep(t': seq<string>, f': seq<string>, t: seq<string>, f: seq<string>,
                      before: seq<string>, x: string, ok: bool)
    requires t' == t + (if ok then [x] else []) && f' == f + (if ok then [] else [x])
    requires multiset(t) + multiset(f) == multiset(before)
    ensures multiset(t') + multiset(f') == multiset(before + [x])
  {
    MultisetSnoc(before, x);
    if ok {
      MultisetSnoc(t, x);
      assert f + [] == f;
    } else {
      MultisetSnoc(f, x);
      assert t + [] == t;
    }
  }

  lemma MultisetSnoc(s: seq<string>, x: string)
    ensures multiset(s + [x]) == multiset(s) + multiset{x}
  {
  }

  /** Extending the inspected prefix of the queue by one message. */
  lemma SelectSnoc(q: seq<string>, oks: seq<bool>, i: nat, outcome: bool)
    requires |oks| == |q| && i < |q|
    ensures Select(q[..i + 1], oks[..i + 1], outcome)
         == Select(q[..i], oks[..i], outcome) + (if oks[i] == outcome then [q[i]] else [])
  {
    assert q[..i + 1][..i] == q[..i] && oks[..i + 1][..i] == oks[..i];
  }

  /** Appending one frame to the bytes already on the wire. */
  lemma WireSnoc(wire: string, sent: seq<string>, message: string)
    ensures wire + Frame(sent + [message]) == wire + Frame(sent) + message + [NL]
  {
    FrameAppend(sent, [message]);
    assert Frame([message]) == message + [NL];
  }

  lemma SelectAll(q: seq<string>, oks: seq<bool>, outcome: bool)
    requires |oks| == |q|
    requires forall k :: 0 <= k < |oks| ==> oks[k] == outcome
    ensures Select(q, oks, outcome) == q
    ensures Select(q, oks, !outcome) == []
  {
    if |q| > 0 {
      var n := |q| - 1;
      SelectAll(q[..n], oks[..n], outcome);
      assert q == q[..n] + [q[n]];
    }
  }

  /**
   The one-minute drain: pop the queue from the front, in order, until it is
   empty, passing each message to `sendTCP`. A write's error callback runs
   only after the loop, so the messages that failed again (`oks[k]` false for
   the k-th) form the new queue, still in their original order; the others are
   written to the wire in order. With no socket every message is dropped.
   */
  method Drain(o: Outbox, oks: seq<bool>) returns (o': Outbox)
    requires |oks| == |o.queue|
    ensures o'.socket == o.socket
    ensures o.socket == NoSocket ==> o'.queue == [] && o'.wire == o.wire
    ensures o.socket == Connected ==>
      o'.queue == Select(o.queue, oks, false)
      && o'.wire == o.wire + Frame(Select(o.queue, oks, true))
  {
    var queue := o.queue;
    var wire := o.wire;
    var failed: seq<string> := [];
    var i := 0;
    while |queue| > 0
      invariant 0 <= i <= |o.queue| && queue == o.queue[i..]
      invariant o.socket == NoSocket ==> wire == o.wire && failed == []
      invariant o.socket == Connected ==>
        failed == Select(o.queue[..i], oks[..i], false)
        && wire == o.wire + Frame(Select(o.queue[..i], oks[..i], true))
    {
      var message := queue[0];
      assert message == o.queue[i];
      queue := queue[1..];
      SelectSnoc(o.queue, oks, i, true);
      SelectSnoc(o.queue, oks, i, false);
      if o.socket == Connected {
        if oks[i] {
          WireSnoc(o.wire, Select(o.queue[..i], oks[..i], true), message);
          wire := wire + message + [NL];
          assert Select(o.queue[..i + 1], oks[..i + 1], true) == Select(o.queue[..i], oks[..i], true) + [message];
          assert Select(o.queue[..i + 1], oks[..i + 1], false) == failed;
        } else {
          failed := failed + [message];
          assert Select(o.queue[..i + 1], oks[..i + 1], true) == Select(o.queue[..i], oks[..i], true);
        }
      }
      i := i + 1;
    }
    assert o.queue[..i] == o.queue && oks[..i] == oks;
    o' := Outbox(o.socket, failed, wire);
  }

  /** Once the link is back, a drain in which every write succeeds empties the queue onto the wire, in order. */
  lemma DrainAllSucceed(q: seq<string>, oks: seq<bool>)
    requires |oks| == |q|
    requires forall k :: 0 <= k < |oks| ==> oks[k]
    ensures Select(q, oks, false) == [] && Select(q, oks, true) == q
  {
    SelectAll(q, oks, true);
  }
}

=== FILE: signal.dfy ===
/**
 The signal classifier (`getSendableSignal`) and one tick of the five-second
 connectivity poller that reports a label change to the server as `net<label>`.
 */
module Signal {
  import opened Wrappers

  /** The coarse signal labels; `Unknown` is the classifier's fall-through value. */
  datatype Label = NoData | Gprs | Edge | ThreeG | HPlus | Unknown

  /** The label as it travels on the wire. */
  function Text(l: Label): string
  {
    match l
    case NoData => "NODATA"
    case Gprs => "GPRS"
    case Edge => "EDGE"
    case ThreeG => "3G"
    case HPlus => "H/H+"
    case Unknown => "unknown"
  }

  /** Reads a label back from its wire text; the inverse of `Text`. */
  function LabelOf(t: string): Option<Label>
  {
    if t == "NODATA" then Some(NoData)
    else if t == "GPRS" then Some(Gprs)
    else if t == "EDGE" then Some(Edge)
    else if t == "3G" then Some(ThreeG)
    else if t == "H/H+" then Some(HPlus)
    else if t == "unknown" then Some(Unknown)
    else None
  }

  /** Every label survives the trip through its text, so distinct labels have distinct texts. */
  lemma LabelTextRoundTrip(l: Label)
    ensures LabelOf(Text(l)) == Some(l)
  {
  }

  /**
   `getSendableSignal`: a missing network type or one below 2 means no data
   link; 2, 3 and 4 are GPRS, EDGE and 3G; anything above 4 is HSPA or better.
   The final `Unknown` branch is kept as written, and the contract shows that
   no integer or missing input reaches it. Network types are taken to be
   integers; some non-integers (`NaN`, `2.5`, or a string such as `"2"`)
   would fall through to `unknown`.
   */
  function Classify(networkType: Option<int>): (l: Label)
    ensures l != Unknown
    ensures l == NoData <==> networkType.None? || networkType.value < 2
    ensures l == Gprs <==> networkType == Some(2)
    ensures l == Edge <==> networkType == Some(3)
    ensures l == ThreeG <==> networkType == Some(4)
    ensures l == HPlus <==> networkType.Some? && networkType.value > 4
  {
    match networkType
    case None => NoData
    case Some(n) =>
      if n < 2 then NoData
      else if n == 2 then Gprs
      else if n == 3 then Edge
      else if n == 4 then ThreeG
      else if n > 4 then HPlus
      else Unknown
  }

  /** Orders the labels by link quality. */
  function Quality(l: Label): nat
  {
    match l
    case NoData => 0
    case Unknown => 0
    case Gprs => 1
    case Edge => 2
    case ThreeG => 3
    case HPlus => 4
  }

  /** A higher network type never yields a worse label. */
  lemma ClassifyMonotone(m: int, n: int)
    requires m <= n
    ensures Quality(Classify(Some(m))) <= Quality(Classify(Some(n)))
  {
  }

  /** The poller's memory and what one tick sends, if anything. */
  datatype Poll = Poll(last: Label, message: Option<string>)

  /**
   One tick of the connectivity poller: classify the freshly read network type
   and, only on a change of label, remember it and emit `net<label>` (written
   to the socket as is, without a type tag).
   */
  function PollTick(last: Label, networkType: Option<int>): (p: Poll)
    ensures p.last == Classify(networkType)
    ensures p.message.Some? <==> Classify(networkType) != last
    ensures p.message.Some? ==> |p.message.value| > 3 && p.message.value[..3] == "net" && LabelOf(p.message.value[3..]) == Some(p.last)
  {
    var current := Classify(networkType);
    if current != last then Poll(current, Some("net" + Text(current))) else Poll(last, None)
  }

  /** A second tick that reads the same network type sends nothing. */
  lemma PollSettles(last: Label, networkType: Option<int>)
    ensures PollTick(PollTick(last, networkType).last, networkType).message == None
  {
  }
}

=== FILE: strings.dfy ===
/**
 The handful of JavaScript string operations the relay relies on, over `seq<char>`:
 `indexOf` of one character, `split` on one character (and its inverse, `join`),
 `toLowerCase`, `replace` of the first occurrence of a character, the regular
 expression `/^\d{1,n}$/` and `parseInt`.
 */
module Strings {
  import opened Wrappers

  /** `s.indexOf(c)`: the position of the first `c` in `s`, or -1 when there is none. */
  function IndexOf(s: string, c: char): (i: int)
    ensures -1 <= i < |s|
    ensures i == -1 <==> c !in s
    ensures 0 <= i ==> s[i] == c && c !in s[..i]
  {
    if |s| == 0 then -1
    else if s[0] == c then 0
    else
      var j := IndexOf(s[1..], c);
      assert j >= 0 ==> s[..j + 1] == [s[0]] + s[1..][..j];
      if j == -1 then -1 else j + 1
  }

  /** The first `c` of `p + [c] + t` is the one right after `p` when `p` holds none. */
  lemma IndexOfAfter(p: string, c: char, t: string)
    requires c !in p
    ensures IndexOf(p + [c] + t, c) == |p|
  {
    var s := p + [c] + t;
    assert s[|p|] == c;
    assert forall k :: 0 <= k < |p| ==> s[k] == p[k];
  }

  /** `parts.join(sep)`: the parts with one `sep` between neighbours. */
  function Join(parts: seq<string>, sep: char): string
  {
    if |parts| == 0 then ""
    else if |parts| == 1 then parts[0]
    else parts[0] + [sep] + Join(parts[1..], sep)
  }

  /** No part holds the separator. */
  predicate Separated(parts: seq<string>, sep: char)
  {
    forall k :: 0 <= k < |parts| ==> sep !in parts[k]
  }

  /**
   `s.split(sep)` for a one-character separator: the maximal runs between
   separators, so never an empty list (`"".split(" ")` is `[""]`), and empty
   strings appear between adjacent separators.
   */
  function Split(s: string, sep: char): (parts: seq<string>)
    ensures |parts| >= 1
    ensures Separated(parts, sep)
    ensures Join(parts, sep) == s
    decreases |s|
  {
    var i := IndexOf(s, sep);
    if i == -1 then [s]
    else
      var tail := Split(s[i + 1..], sep);
      assert ([s[..i]] + tail)[1..] == tail;
      assert s == s[..i] + [sep] + s[i + 1..];
      [s[..i]] + tail
  }

  /** `split` undoes `join` when the parts hold no separator. */
  lemma {:induction false} SplitJoin(parts: seq<string>, sep: char)
    requires |parts| >= 1
    requires Separated(parts, sep)
    ensures Split(Join(parts, sep), sep) == parts
    decreases |parts|
  {
    if |parts| > 1 {
      assert sep !in parts[0];
      SplitAt(parts[0], sep, Join(parts[1..], sep));
      SplitJoin(parts[1..], sep);
      assert [parts[0]] + parts[1..] == parts;
    } else {
      assert sep !in parts[0];
    }
  }

  /** A separator-free head followed by the separator splits off as the first part. */
  lemma SplitAt(p: string, sep: char, t: string)
    requires sep !in p
    ensures Split(p + [sep] + t, sep) == [p] + Split(t, sep)
  {
    var s := p + [sep] + t;
    IndexOfAfter(p, sep, t);
    assert s[..|p|] == p;
    assert s[|p| + 1..] == t;
  }

  /** Concatenation regroups freely. */
  lemma Associate<T>(a: seq<T>, b: seq<T>, c: seq<T>)
    ensures a + (b + c) == (a + b) + c
  {
  }

  /** The text before the first `sep` (all of `s` when there is none): `s.split(sep)[0]`. */
  function Before(s: string, sep: char): (r: string)
    ensures sep !in r
    ensures r <= s
    ensures |r| < |s| ==> s[|r|] == sep
  {
    var i := IndexOf(s, sep);
    if i == -1 then s else s[..i]
  }

  /** The text before a separator that follows a separator-free head is that head. */
  lemma BeforeAt(p: string, c: char, t: string)
    requires c !in p
    ensures Before(p + [c] + t, c) == p
  {
    IndexOfAfter(p, c, t);
    assert (p + [c] + t)[..|p|] == p;
  }

  /** The text after the first separator, when it follows a separator-free head. */
  lemma AfterAt(p: string, c: char, t: string)
    requires c !in p
    ensures IndexOf(p + [c] + t, c) == |p| && (p + [c] + t)[|p| + 1..] == t
  {
    IndexOfAfter(p, c, t);
  }

  /** `Before` is the first element of `Split`. */
  lemma BeforeIsFirstPart(s: string, sep: char)
    ensures Split(s, sep)[0] == Before(s, sep)
  {
  }

  /** `s.replace(a, b)` with a one-character pattern: only the FIRST `a` becomes `b`. */
  function ReplaceFirst(s: string, a: char, b: char): (r: string)
    ensures |r| == |s|
    ensures a !in s ==> r == s
    ensures a in s ==> r[IndexOf(s, a)] == b
    ensures forall k :: 0 <= k < |s| && k != IndexOf(s, a) ==> r[k] == s[k]
  {
    var i := IndexOf(s, a);
    if i == -1 then s else s[i := b]
  }

  /** ASCII case mapping; every other character is left alone. */
  function LowerChar(c: char): char
  {
    if 'A' <= c <= 'Z' then (c as int + 32) as char else c
  }

  predicate IsUpper(c: char)
  {
    'A' <= c <= 'Z'
  }

  /** `s.toLowerCase()` on ASCII letters. */
  function ToLower(s: string): (r: string)
    ensures |r| == |s|
    ensures forall k :: 0 <= k < |s| ==> r[k] == LowerChar(s[k])
    ensures forall k :: 0 <= k < |r| ==> !IsUpper(r[k])
  {
    seq(|s|, k requires 0 <= k < |s| => LowerChar(s[k]))
  }

  /** Lower-casing works character by character, so it commutes with slicing. */
  lemma ToLowerDrop(s: string, n: nat)
    requires n <= |s|
    ensures ToLower(s)[n..] == ToLower(s[n..])
  {
  }

  /** A string with no upper-case letter is its own lower-case form. */
  lemma ToLowerFixed(s: string)
    requires forall k :: 0 <= k < |s| ==> !IsUpper(s[k])
    ensures ToLower(s) == s
  {
  }

  predicate IsDigit(c: char)
  {
    '0' <= c <= '9'
  }

  predicate AllDigits(s: string)
  {
    forall k :: 0 <= k < |s| ==> IsDigit(s[k])
  }

  /** `/^\d{1,n}$/.test(s)`: one to `n` ASCII digits and nothing else. */
  predicate DigitsUpTo(s: string, n: nat)
  {
    1 <= |s| <= n && AllDigits(s)
  }

  function Pow10(n: nat): (p: nat)
    ensures p >= 1
  {
    if n == 0 then 1 else 10 * Pow10(n - 1)
  }

  lemma {:induction false} Pow10Monotone(m: nat, n: nat)
    requires m <= n
    ensures Pow10(m) <= Pow10(n)
    decreases n
  {
    if m < n {
      Pow10Monotone(m, n - 1);
    }
  }

  /** The base-ten value of a digit string; below 10 to the power of its length. */
  function DecimalValue(s: string): (v: nat)
    requires AllDigits(s)
    ensures v < Pow10(|s|)
  {
    if |s| == 0 then 0
    else DecimalValue(s[..|s| - 1]) * 10 + (s[|s| - 1] as int - '0' as int)
  }

  /** `parseInt` of a string of at most `n` digits lies in [0, 10^n - 1]. */
  lemma DigitsBound(s: string, n: nat)
    requires DigitsUpTo(s, n)
    ensures 0 <= DecimalValue(s) < Pow10(n)
  {
    Pow10Monotone(|s|, n);
  }

  /** The longest prefix of `s` made of digits. */
  function LeadingDigits(s: string): (d: string)
    ensures d <= s && AllDigits(d)
    ensures |d| < |s| ==> !IsDigit(s[|d|])
  {
    if |s| == 0 || !IsDigit(s[0]) then ""
    else [s[0]] + LeadingDigits(s[1..])
  }

  /**
   `parseInt(s)` as the relay uses it, on strings of digits possibly followed by
   other text: the value of the leading digits, or `None` (JavaScript's `NaN`)
   when `s` does not start with a digit.
   */
  function ParseInt(s: string): (r: Option<nat>)
    ensures r.None? <==> |s| == 0 || !IsDigit(s[0])
  {
    var d := LeadingDigits(s);
    if |d| == 0 then None else Some(DecimalValue(d))
  }

  /** On a string of digits only, `parseInt` is its decimal value. */
  lemma ParseIntOfDigits(s: string)
    requires 1 <= |s| && AllDigits(s)
    ensures ParseInt(s) == Some(DecimalValue(s))
  {
    LeadingDigitsOfDigits(s);
  }

  lemma {:induction false} LeadingDigitsOfDigits(s: string)
    requires AllDigits(s)
    ensures LeadingDigits(s) == s
    decreases |s|
  {
    if |s| > 0 {
      LeadingDigitsOfDigits(s[1..]);
      assert [s[0]] + s[1..] == s;
    }
  }
}

=== FILE: wrappers.dfy ===
/** Optional values: JavaScript's `undefined` (and `NaN` from `parseInt`) become `None`. */
module Wrappers {

  datatype Option<+T> = None | Some(value: T)
}
